=== FILE: README.md ===
# PulseKure account and session logic in Dafny

This project models the decision logic behind accounts in the PulseKure portal and
proves properties about it:

- **Session manager** (`AuthContext`, from `AuthContext.tsx`). The front end's
  `AuthProvider` holds `user`, `token` and `isLoading`, the token persisted in
  browser storage, and the Authorization header of the shared HTTP client. Its
  operations are initialisation through `/auth/me/`, `login`, `register`, `logout`
  and the three-tier error message. Each operation is a pure step on a `Session`
  value. The class `AuthProvider` keeps the same state in fields, and its methods
  are proved to perform exactly those steps. Traces of operations are folded by
  `Run`.
- **Profile page** (`ProfilePage`, from `Profile.tsx`). This covers the form
  record and `validateForm`, including the unanchored e-mail pattern
  `/\S+@\S+\.\S+/` and JavaScript's UTF-16 `length`. It also covers the
  picture-acceptance rule, the multipart payload that `handleSubmit` builds, the
  reset after a successful save, `handleChange` and the two-factor toggle. Form
  updates are functions from the previous record to the next one, and toasts are
  returned as events.
- **User model** (`AccountModel`, from `models.py`). This is the account record,
  the 150-character name columns, and a model instance with the defaults for new
  accounts.
- **Profile serializer** (`ProfileSerializer`, from `serializers.py`). This covers
  read-only fields, `validate`, and `update`. Inside `update`, the password change
  is guarded, the picture replacement is optional, and a `setattr` loop copies the
  remaining entries. The update is specified on records, and a method that mutates
  a model instance is proved to match it.
- **E-mail verification** (`AccountViews`, from `views.py`). This covers the
  decisions of `ResendVerificationEmailView.post` and `VerifyEmailView.get`, over a
  user table and an outbox of sent mail.

These collaborators become parameters:

- The HTTP server's answers are `Outcome` values.
- Navigation is a log of routes.
- Browser storage is a field.
- Django's password hashing is a `PasswordHasher`: the two functions `encode` and
  `matches`.
- The activation-token generator is a `TokenGenerator`.
- Base64 encoding of primary keys is a `UidCodec`.
- Settings are a `Settings` record.

A user can be present without a token. On the first load a user only comes with
a truthy token (`FirstLoadUserNeedsToken`), but that does not hold in general.
The initialisation effect depends on `token` (AuthContext.tsx:65), so it runs
again whenever `login` changes the token. If that `/auth/me/` call fails, the
catch branch (AuthContext.tsx:56-59) removes the token but never clears `user`.
The session then reports itself authenticated without a token.
`RevalidationFailureKeepsUser` shows the state it reaches. The invariant that
does hold on every trace is `Consistent`: storage equals the in-memory token,
and the header is derived from the token (the contract of `Run`).

## Model

| member | source | states |
|---|---|---|
| `AuthContext.ErrorMessage` | backend/frontend/src/contexts/AuthContext.tsx:78-110 | Three tiers. A server answer gives its `detail` if non-empty, else "Login failed" or "Registration failed". No answer gives the network message. Anything else gives the per-operation setup message. The message is never empty |
| `AuthContext.AuthorizationHeader` | backend/frontend/src/contexts/AuthContext.tsx:42-48 | The header is present exactly for a truthy token and is `"Bearer "` followed by the token |
| `AuthContext.Initial` | backend/frontend/src/contexts/AuthContext.tsx:36-38 | Mounting starts with no user, the stored token as token, loading true, storage and header consistent |
| `AuthContext.InitializeStep` | backend/frontend/src/contexts/AuthContext.tsx:50-65 | Loading always ends. With a truthy token, success adopts the returned user. Failure clears storage, token and header and leaves `user` as it was. Without a truthy token only loading changes. Consistency is preserved |
| `AuthContext.LoginStep` | backend/frontend/src/contexts/AuthContext.tsx:67-91 | Success stores and adopts the returned token and user and navigates to `/dashboard` once. Failure changes nothing and throws `ErrorMessage(login)`. Consistency is preserved |
| `AuthContext.RegisterStep` | backend/frontend/src/contexts/AuthContext.tsx:93-111 | Never changes the session. Navigates to `/login` iff the call succeeded. Throws `ErrorMessage(register)` iff it failed |
| `AuthContext.LogoutStep` | backend/frontend/src/contexts/AuthContext.tsx:113-118 | Afterwards there is no token, no stored token, no header and no user (not authenticated), and the app navigates to `/login` |
| `AuthContext.LogoutIdempotent` | backend/frontend/src/contexts/AuthContext.tsx:113-118 | Logging out twice gives the same session as logging out once |
| `AuthContext.Apply` | backend/frontend/src/contexts/AuthContext.tsx:50-118 | One operation with the server's answer. A thrown error never comes with a changed session. Initialisation neither navigates nor throws. Each operation keeps storage and header consistent and never restarts loading |
| `AuthContext.Run` | backend/frontend/src/contexts/AuthContext.tsx:38-118 | Operations performed in order. On every trace from a consistent session, storage still equals the token and the header matches the token. Once loading has ended, no later operation sets it again |
| `AuthContext.RunAppend` | backend/frontend/src/contexts/AuthContext.tsx:50-118 | Running one trace and then another equals running their concatenation |
| `AuthContext.InitializationEndsLoading` | backend/frontend/src/contexts/AuthContext.tsx:50-65 | Whatever `/auth/me/` answers, a trace starting with initialisation ends with loading false |
| `AuthContext.LoginSurvivesReload` | backend/frontend/src/contexts/AuthContext.tsx:37-77 | After a successful login with a non-empty token, a reload whose `/auth/me/` succeeds is authenticated with the same token |
| `AuthContext.FirstLoadUserNeedsToken` | backend/frontend/src/contexts/AuthContext.tsx:36-65 | On the first load, the session is authenticated only together with a truthy token |
| `AuthContext.RevalidationFailureKeepsUser` | backend/frontend/src/contexts/AuthContext.tsx:50-65 | Login followed by a failing re-initialisation leaves a user with no token |
| `AuthContext.ExpiredTokenScenario` | backend/frontend/src/contexts/AuthContext.tsx:50-65 | Stored token `abc123` rejected by `/auth/me/` ends as: no user, no token, not loading, storage and header empty |
| `AuthContext.AuthProvider.constructor` | backend/frontend/src/contexts/AuthContext.tsx:35-48 | The provider's fields start as `Initial(stored)`, with no navigation yet |
| `AuthContext.AuthProvider.SyncAuthHeader` | backend/frontend/src/contexts/AuthContext.tsx:42-48 | The header field becomes the header derived from the current token |
| `AuthContext.AuthProvider.InitializeAuth` | backend/frontend/src/contexts/AuthContext.tsx:50-65 | The fields change exactly as `InitializeStep` says. No navigation |
| `AuthContext.AuthProvider.Login` | backend/frontend/src/contexts/AuthContext.tsx:67-91 | Fields, navigation log and thrown message are those of `LoginStep` |
| `AuthContext.AuthProvider.Register` | backend/frontend/src/contexts/AuthContext.tsx:93-111 | Only the navigation log can change, as `RegisterStep` says. The thrown message is `RegisterStep`'s |
| `AuthContext.AuthProvider.Logout` | backend/frontend/src/contexts/AuthContext.tsx:113-118 | Fields become `LogoutStep`'s session and `/login` is appended to the navigation log |
| `AuthContext.AuthProvider.IsAuthenticatedNow` | backend/frontend/src/contexts/AuthContext.tsx:128 | Authenticated iff a user is present |
| `ProfilePage.InitialForm` | backend/frontend/src/pages/Profile.tsx:23-32 | The form starts from the user's e-mail, names and 2FA flag, or from empty values and false. Password inputs are empty and there is no picture |
| `ProfilePage.IsSpace` | backend/frontend/src/pages/Profile.tsx:39 | The `\s` class: on ASCII exactly tab, line feed, vertical tab, form feed, carriage return and space, and every member lies in the Basic Multilingual Plane |
| `ProfilePage.Utf16Length` | backend/frontend/src/pages/Profile.tsx:47 | JavaScript length is between the character count and twice it, and equals the character count for text within the Basic Multilingual Plane |
| `ProfilePage.EmailPattern` | backend/frontend/src/pages/Profile.tsx:39 | The `.test` of the e-mail pattern. A match needs at least five characters, including an '@' and a '.'. `EmailPatternIsRegex` shows it agrees with the regular expression |
| `ProfilePage.EmailPatternIsRegex` | backend/frontend/src/pages/Profile.tsx:39 | The executable e-mail check is true iff some slice of the string matches `\S+@\S+\.\S+` |
| `ProfilePage.EmailErrors` | backend/frontend/src/pages/Profile.tsx:37-41 | An empty e-mail gives exactly "Email is required" and never "Email is invalid". A non-empty e-mail failing the pattern gives "Email is invalid" |
| `ProfilePage.PasswordErrors` | backend/frontend/src/pages/Profile.tsx:43-53 | No message unless a new-password input is filled. Otherwise each message appears iff its condition holds, in the order current password, length, match |
| `ProfilePage.ValidateForm` | backend/frontend/src/pages/Profile.tsx:34-56 | Each of the five messages appears iff its condition holds, in fixed order, with no repeats and at most 4 in all. The list is empty iff the form is valid |
| `ProfilePage.NoPasswordErrorsWithoutChange` | backend/frontend/src/pages/Profile.tsx:43-53 | With both new-password inputs empty, the current-password input cannot change the result, and only e-mail messages can appear |
| `ProfilePage.HandleProfilePictureChange` | backend/frontend/src/pages/Profile.tsx:58-71 | A file is accepted iff its size is at most 5 MiB and its type starts with `image/`. The size is checked first. Acceptance changes only the picture. Rejection changes nothing and shows one error. No file changes nothing |
| `ProfilePage.HandleChange` | backend/frontend/src/pages/Profile.tsx:175-178 | The named input takes the value. Every other input, the picture and the 2FA flag are unchanged |
| `ProfilePage.ChangeThenRestore` | backend/frontend/src/pages/Profile.tsx:175-178 | Typing an input's old value back restores the form |
| `ProfilePage.ToggleTwoFactor` | backend/frontend/src/pages/Profile.tsx:286 | Flips the 2FA flag and changes nothing else |
| `ProfilePage.ToggleTwiceRestores` | backend/frontend/src/pages/Profile.tsx:286 | Toggling twice restores the form |
| `ProfilePage.BuildPayload` | backend/frontend/src/pages/Profile.tsx:84-97 | The `FormData` parts in append order: four parts always, one more for a chosen picture, two more for a typed new password. Its contents are what `PayloadParts` states, and `PayloadShape` shows the confirmation is never sent |
| `ProfilePage.PayloadShape` | backend/frontend/src/pages/Profile.tsx:84-97 | No part is named `confirmPassword` |
| `ProfilePage.PayloadParts` | backend/frontend/src/pages/Profile.tsx:84-97 | Always sends e-mail, names and 2FA as `"true"`/`"false"`. Sends the picture iff one is chosen. Sends current and new password iff a new password was typed. Never sends the confirmation |
| `ProfilePage.ErrorToasts` | backend/frontend/src/pages/Profile.tsx:76-80 | Each validation error is shown as its own error toast, in order |
| `ProfilePage.PostSaveReset` | backend/frontend/src/pages/Profile.tsx:111-117 | After saving, the three password inputs are empty and the picture is null. E-mail, names and 2FA are unchanged |
| `ProfilePage.FailureText` | backend/frontend/src/pages/Profile.tsx:120 | The toast text after a failed request is the server's non-empty `message`, else "Failed to update profile". It is never empty |
| `ProfilePage.SendRequest` | backend/frontend/src/pages/Profile.tsx:82-123 | The request sent is the payload. A save resets the form and shows the success toast. A failed request keeps the form and shows `FailureText` of the server's message. Any other error keeps the form and shows "An unexpected error occurred" |
| `ProfilePage.HandleSubmit` | backend/frontend/src/pages/Profile.tsx:73-127 | A form with validation errors sends nothing, stays as it is and shows one error toast per message, in order. A form without errors goes through `SendRequest`, so a request is sent iff validation found no error |
| `ProfilePage.SentPasswordChangeIsComplete` | backend/frontend/src/pages/Profile.tsx:43-97 | A sent new password is accompanied by a non-empty current password, matches its confirmation and is at least 8 UTF-16 units long |
| `ProfilePage.SavedFormStaysValid` | backend/frontend/src/pages/Profile.tsx:111-117 | A valid form still validates cleanly after the post-save reset |
| `ProfilePage.MismatchedPasswordsBlockSubmit` | backend/frontend/src/pages/Profile.tsx:34-80 | For every form with a non-empty e-mail matching the pattern, a non-empty current password and a new password of at least 8 units, mismatched new passwords give exactly "New passwords do not match", and no request is sent |
| `ProfilePage.MismatchedPasswordsScenario` | backend/frontend/src/pages/Profile.tsx:34-80 | The form `a@b.com`, current password `secret123`, new passwords `password1` and `password2` gives exactly "New passwords do not match", and no request is sent |
| `AccountModel.CheckPassword` | backend/accounts/serializers.py:38 | A missing current password never checks. A present one checks iff the hasher matches it against the stored encoding |
| `AccountModel.UserInstance.SetPassword` | backend/accounts/serializers.py:40 | The stored password becomes the encoding of the new raw password |
| `AccountModel.UserInstance.Save` | backend/accounts/serializers.py:48 | Saving is recorded: the save count goes up by one |
| `AccountModel.UserInstance.constructor` | backend/accounts/models.py:5-16 | A new account has both flags false and no picture |
| `ProfileSerializer.ValidatedData` | backend/accounts/serializers.py:25 | Input entries for `id` and `isEmailVerified` are dropped. All other entries are kept unchanged |
| `ProfileSerializer.Validate` | backend/accounts/serializers.py:27-30 | Rejects data naming `newPassword` without a truthy `currentPassword`. Otherwise returns the data unchanged |
| `ProfileSerializer.SetAttr` | backend/accounts/serializers.py:46 | `setattr` sets the named column and leaves every other column, the password and the picture alone |
| `ProfileSerializer.CopyAttributes` | backend/accounts/serializers.py:45-46 | After the loop, each column named in the remaining data has its value and every other column keeps its own |
| `ProfileSerializer.CopyAttributesExtend` | backend/accounts/serializers.py:45-46 | One more `setattr` after the others equals copying all entries together, whatever the iteration order |
| `ProfileSerializer.UpdateRecord` | backend/accounts/serializers.py:32-49 | Fails with "Current password is incorrect" iff a truthy new password comes with a current password that does not check. Otherwise: the password changes only on a password change, the picture only for a truthy upload, and each other column takes the supplied value or keeps its own |
| `ProfileSerializer.ReadOnlyFieldsUnchanged` | backend/accounts/serializers.py:25 | Whatever the client sends, an update never changes `id` or `isEmailVerified` |
| `ProfileSerializer.NewPasswordChecksAfterUpdate` | backend/accounts/serializers.py:37-40 | After a successful password change, the account accepts the new password, given a sound hasher |
| `ProfileSerializer.UpdateKeepsNamesFit` | backend/accounts/models.py:7-8 | Names within 150 characters stay within 150 characters after an update |
| `ProfileSerializer.SetAttribute` | backend/accounts/serializers.py:46 | The instance changes as `SetAttr` says and is not saved |
| `ProfileSerializer.CopyRemaining` | backend/accounts/serializers.py:45-46 | The `setattr` loop leaves the instance equal to `CopyAttributes` of its starting record |
| `ProfileSerializer.Update` | backend/accounts/serializers.py:32-49 | Failure leaves the instance untouched and unsaved. Success makes the instance equal to `UpdateRecord`'s result, saved once |
| `AccountViews.VerificationUrl` | backend/accounts/views.py:42 | The link starts with `FRONTEND_URL`, ends with a slash, and is exactly as long as its parts |
| `AccountViews.VerificationUrlDeterminesLink` | backend/accounts/views.py:39-42 | When the encoded key holds no slash, equal links carry the same key and the same token |
| `AccountViews.ResendVerification` | backend/accounts/views.py:31-55 | A verified user gets 400 "Email is already verified" and no mail. Otherwise the user gets 200 and one mail from the configured sender to their own address, whose body ends with the link `FRONTEND_URL/verify-email/<uid>/<token>/` |
| `AccountViews.VerifyEmail` | backend/accounts/views.py:58-75 | 200 iff the uid decodes to an existing user whose token checks. That user alone becomes verified. Any other link gets 400 "Invalid verification link" and changes no user |
| `AccountViews.VerifyOnlySetsFlag` | backend/accounts/views.py:65-67 | Verification changes no field except `isEmailVerified` and never clears it |
| `AccountViews.ResendThenVerify` | backend/accounts/views.py:39-67 | When the key encoding round-trips and the token checks, following the mailed link verifies the user |
| `AccountViews.AccountService.ResendVerificationEmail` | backend/accounts/views.py:31-55 | Response and outbox are those of `ResendVerification`: zero or one mail appended |
| `AccountViews.AccountService.VerifyEmailLink` | backend/accounts/views.py:58-75 | Response and user table are those of `VerifyEmail` |

## Left out

- Asynchronous interleaving and React effect scheduling are not modelled. The
  header effect runs right after each token change. The initialisation effect is an
  operation (`InitializeAuth`) that can happen in any state.
- The e-mail and password that `login` and `register` send are not modelled,
  because only the server's answer affects the session.
- The second navigation to `/` that `Login.tsx` performs after `login` resolves is
  not modelled. That page is not part of this model.
- The source reads `error.response.data.detail`. If the answer's data were null or
  undefined, that read would throw a different error. The model assumes the data
  is never null or undefined. Any other data without a `detail`, such as a string
  body, reads as `ServerResponse(None)` and gets the fallback message.
- Profile.tsx: `handleDeleteAccount` and `handleResendVerification` are not
  modelled. They are a confirmation dialog, one network call and toasts, and the
  logout that deletion triggers is `LogoutStep`.
- Profile.tsx: the page's `isLoading`/`isDeleting` flags and the image preview
  (`URL.createObjectURL`) are presentation only.
- Profile.tsx attaches its own Authorization header (`Bearer ${token}`, which reads
  `Bearer null` without a token) to the PUT at line 104. That header is not
  modelled. `Submission.request` is the multipart body only.
- Password hashing, `check_password`, the activation-token generator, URL-safe
  base64 and the primary-key parse are abstract functions passed as parameters.
- `send_mail` appends to an outbox. A failure to send, which would propagate
  because `fail_silently=False`, is not modelled.
- `save()` is counted on instances. In the views it is the update of the user
  table.
- Django REST framework's field-level validation is reduced to `WellTyped`: each
  value has its field's kind, and names are at most 150 characters. E-mail format
  checks, blank-string rules, image decoding and the unique-e-mail validator that
  the model serializer derives from `unique=True` are not modelled.
- `ProfileSerializer.ValidatedData`: the values are taken as parsed, and the parsing
  itself is not modelled. In particular, `CharField` trims surrounding whitespace
  from `currentPassword`, `newPassword`, `email`, `firstName` and `lastName` before
  `validate` and `update` see them. So `" secret123 "` is stored as the encoding of
  `secret123`. A stored password with surrounding spaces can then never pass the
  check at serializers.py:38.
- Where an uploaded picture is stored (`upload_to`) is not modelled. The record
  keeps the file's name.
- `ProfileView` (retrieve, update dispatch, delete) and its `IsAuthenticated`
  permission are not modelled, because they are framework glue.
- `urls.py`, `wsgi.py`, the dashboards, the layouts, the toaster and the route
  tables are not modelled, because they have no decision logic.

=== FILE: account_model.dfy ===
/**
 * The back end's user model (models.py on top of Django's AbstractUser): the record
 * of one account, and a model instance whose fields views and serializers assign
 * before saving.
 *
 * Password hashing is not modelled: a `PasswordHasher` carries the two operations
 * Django provides (`make_password` and `check_password`) as functions.
 */
module AccountModel {
  import opened Optional

  /** `max_length` of `firstName` and `lastName`. */
  const MaxNameLength: nat := 150

  /** The stored state of one account. `password` is the encoded (hashed) password. */
  datatype UserRecord = UserRecord(
    id: nat,
    email: string,
    firstName: string,
    lastName: string,
    isEmailVerified: bool,
    isTwoFactorEnabled: bool,
    profilePicture: Option<string>,  // the stored file name, null when there is none
    password: string)

  /** The names respect their column width. */
  predicate NamesFit(u: UserRecord)
  {
    |u.firstName| <= MaxNameLength && |u.lastName| <= MaxNameLength
  }

  /** `make_password` and the comparison `check_password` performs. */
  datatype PasswordHasher = PasswordHasher(encode: string -> string, matches: (string, string) -> bool)

  /** `instance.check_password(raw)`: a missing raw password never checks. */
  function CheckPassword(h: PasswordHasher, u: UserRecord, raw: Option<string>): (b: bool)
    ensures raw.None? ==> !b
    ensures raw.Some? ==> (b <==> h.matches(raw.value, u.password))
  {
    raw.Some? && h.matches(raw.value, u.password)
  }

  /** A loaded model instance; `saves` counts calls to `save()`. */
  class UserInstance {
    var id: nat
    var email: string
    var firstName: string
    var lastName: string
    var isEmailVerified: bool
    var isTwoFactorEnabled: bool
    var profilePicture: Option<string>
    var password: string
    var saves: nat

    function Record(): UserRecord
      reads this
    {
      UserRecord(id, email, firstName, lastName, isEmailVerified, isTwoFactorEnabled, profilePicture, password)
    }

    /** A new account: both flags default to false and there is no picture. */
    constructor (id: nat, email: string, firstName: string, lastName: string, password: string)
      ensures Record() == UserRecord(id, email, firstName, lastName, false, false, None, password)
      ensures saves == 0
    {
      this.id := id;
      this.email := email;
      this.firstName := firstName;
      this.lastName := lastName;
      this.isEmailVerified := false;
      this.isTwoFactorEnabled := false;
      this.profilePicture := None;
      this.password := password;
      this.saves := 0;
    }

    /** `set_password`: store the encoding of the raw password. */
    method SetPassword(h: PasswordHasher, raw: string)
      modifies this`password
      ensures password == h.encode(raw)
    {
      password := h.encode(raw);
    }

    /** `save()`: recorded as an event. */
    method Save()
      modifies this`saves
      ensures saves == old(saves) + 1
    {
      saves := saves + 1;
    }
  }
}

=== FILE: account_views.dfy ===
/**
 * The e-mail verification endpoints (views.py): resending the verification mail and
 * following the verification link.
 *
 * The token generator, the URL-safe base64 encoding of the primary key and the
 * settings are parameters; sending mail appends to an outbox; the user table is a
 * map from primary key to record.
 */
module AccountViews {
  import opened Optional
  import opened AccountModel

  datatype Response = Response(status: nat, message: string)

  datatype Mail = Mail(subject: string, body: string, sender: string, recipients: seq<string>)

  /** `settings.FRONTEND_URL` and `settings.DEFAULT_FROM_EMAIL`. */
  datatype Settings = Settings(frontendUrl: string, defaultFromEmail: string)

  /** `account_activation_token.make_token` and `check_token`. */
  datatype TokenGenerator = TokenGenerator(makeToken: UserRecord -> string, checkToken: (UserRecord, string) -> bool)

  /**
   * `urlsafe_base64_encode(force_bytes(pk))`, and the way back: decoding, `force_str`
   * and reading a primary key, where `None` stands for the TypeError, ValueError or
   * OverflowError the view catches.
   */
  datatype UidCodec = UidCodec(encode: nat -> string, decode: string -> Option<nat>)

  const HttpOk: nat := 200
  const HttpBadRequest: nat := 400

  const AlreadyVerified: string := "Email is already verified"
  const VerificationSent: string := "Verification email sent successfully"
  const EmailVerified: string := "Email verified successfully"
  const InvalidLink: string := "Invalid verification link"
  const VerificationSubject: string := "Verify your email"
  const VerificationBodyPrefix: string := "Click the link to verify your email: "

  /** The front-end page a verification mail links to. */
  function VerificationUrl(settings: Settings, uid: string, token: string): (url: string)
    ensures |url| == |settings.frontendUrl| + |VerifyPath| + |uid| + |token| + 2
    ensures url[..|settings.frontendUrl|] == settings.frontendUrl
    ensures url[|url| - 1] == '/'
  {
    settings.frontendUrl + VerifyPath + uid + "/" + token + "/"
  }

  /** The front-end route of the verification page. */
  const VerifyPath: string := "/verify-email/"

  /** In a key followed by a slash, that slash is the first one. */
  lemma FirstSlashEndsKey(uid: string, token: string)
    requires '/' !in uid
    ensures (uid + "/" + token + "/")[|uid|] == '/'
    ensures forall k | 0 <= k < |uid| :: (uid + "/" + token + "/")[k] != '/'
  {
    forall k | 0 <= k < |uid|
      ensures (uid + "/" + token + "/")[k] != '/'
    {
      assert (uid + "/" + token + "/")[k] == uid[k];
    }
  }

  /** The key and the token can be read back from their positions in the tail of a link. */
  lemma SplitTail(uid: string, token: string)
    ensures var tail := uid + "/" + token + "/";
      uid == tail[..|uid|] && token == tail[|uid| + 1..|tail| - 1]
  {
  }

  /** Two links with the same front-end URL agree after it. */
  lemma SameTail(settings: Settings, uid1: string, token1: string, uid2: string, token2: string)
    requires VerificationUrl(settings, uid1, token1) == VerificationUrl(settings, uid2, token2)
    ensures uid1 + "/" + token1 + "/" == uid2 + "/" + token2 + "/"
  {
    var prefix := settings.frontendUrl + VerifyPath;
    var tail1 := uid1 + "/" + token1 + "/";
    var tail2 := uid2 + "/" + token2 + "/";
    assert VerificationUrl(settings, uid1, token1) == prefix + tail1;
    assert VerificationUrl(settings, uid2, token2) == prefix + tail2;
    assert tail1 == (prefix + tail1)[|prefix|..];
    assert tail2 == (prefix + tail2)[|prefix|..];
  }

  /**
   * The link identifies its key and token: as long as the encoded key holds no slash
   * (URL-safe base64 never does), two equal links carry the same key and token.
   */
  lemma {:induction false} VerificationUrlDeterminesLink(settings: Settings, uid1: string, token1: string, uid2: string, token2: string)
    requires '/' !in uid1 && '/' !in uid2
    requires VerificationUrl(settings, uid1, token1) == VerificationUrl(settings, uid2, token2)
    ensures uid1 == uid2 && token1 == token2
  {
    SameTail(settings, uid1, token1, uid2, token2);
    // The first slash of the common tail ends each key, so the keys have the same length.
    FirstSlashEndsKey(uid1, token1);
    FirstSlashEndsKey(uid2, token2);
    assert |uid1| == |uid2|;
    SplitTail(uid1, token1);
    SplitTail(uid2, token2);
  }

  /**
   * `ResendVerificationEmailView.post`: an already verified user gets a 400 and no
   * mail; anyone else gets exactly one mail, to their own address, whose body ends
   * with the link built from their encoded key and a fresh token, and a 200.
   */
  function ResendVerification(user: UserRecord, gen: TokenGenerator, codec: UidCodec, settings: Settings): (r: (Response, Option<Mail>))
    ensures r.1.None? <==> user.isEmailVerified
    ensures user.isEmailVerified ==> r.0 == Response(HttpBadRequest, AlreadyVerified)
    ensures !user.isEmailVerified ==> r.0 == Response(HttpOk, VerificationSent)
    ensures r.1.Some? ==>
      var url := VerificationUrl(settings, codec.encode(user.id), gen.makeToken(user));
      && r.1.value.recipients == [user.email]
      && r.1.value.sender == settings.defaultFromEmail
      && |url| <= |r.1.value.body| && r.1.value.body[|r.1.value.body| - |url|..] == url
  {
    if user.isEmailVerified then
      (Response(HttpBadRequest, AlreadyVerified), None)
    else
      var token := gen.makeToken(user);
      var uid := codec.encode(user.id);
      var url := VerificationUrl(settings, uid, token);
      var mail := Mail(VerificationSubject, VerificationBodyPrefix + url, settings.defaultFromEmail, [user.email]);
      (Response(HttpOk, VerificationSent), Some(mail))
  }

  /** The link names an existing user and carries a token that checks for that user. */
  predicate LinkValid(users: map<nat, UserRecord>, uidb64: string, token: string, gen: TokenGenerator, codec: UidCodec)
  {
    var pk := codec.decode(uidb64);
    pk.Some? && pk.value in users && gen.checkToken(users[pk.value], token)
  }

  /**
   * `VerifyEmailView.get`: a valid link marks exactly its user verified and answers 200;
   * any other link answers 400 and changes no user.
   */
  function VerifyEmail(users: map<nat, UserRecord>, uidb64: string, token: string, gen: TokenGenerator, codec: UidCodec)
    : (r: (Response, map<nat, UserRecord>))
    ensures r.0.status == HttpOk <==> LinkValid(users, uidb64, token, gen, codec)
    ensures !LinkValid(users, uidb64, token, gen, codec) ==> r == (Response(HttpBadRequest, InvalidLink), users)
    ensures LinkValid(users, uidb64, token, gen, codec) ==>
      var pk := codec.decode(uidb64).value;
      && r.0 == Response(HttpOk, EmailVerified)
      && r.1.Keys == users.Keys
      && r.1[pk] == users[pk].(isEmailVerified := true)
      && forall k | k in users && k != pk :: r.1[k] == users[k]
  {
    var pk := codec.decode(uidb64);
    if pk.Some? && pk.value in users && gen.checkToken(users[pk.value], token) then
      var user := users[pk.value];
      (Response(HttpOk, EmailVerified), users[pk.value := user.(isEmailVerified := true)])
    else
      (Response(HttpBadRequest, InvalidLink), users)
  }

  /** Verification never clears a flag and never touches anything but the flag. */
  lemma VerifyOnlySetsFlag(users: map<nat, UserRecord>, uidb64: string, token: string, gen: TokenGenerator, codec: UidCodec, k: nat)
    requires k in users
    ensures var after := VerifyEmail(users, uidb64, token, gen, codec).1;
      k in after && after[k].(isEmailVerified := users[k].isEmailVerified) == users[k]
      && (users[k].isEmailVerified ==> after[k].isEmailVerified)
  {
  }

  /**
   * The link in a resent mail works: when the key encoding round-trips and the token
   * made for the user checks, following the mailed link verifies that user.
   */
  lemma ResendThenVerify(users: map<nat, UserRecord>, user: UserRecord, gen: TokenGenerator, codec: UidCodec, settings: Settings)
    requires !user.isEmailVerified
    requires user.id in users && users[user.id] == user
    requires codec.decode(codec.encode(user.id)) == Some(user.id)
    requires gen.checkToken(user, gen.makeToken(user))
    ensures var mail := ResendVerification(user, gen, codec, settings).1;
      var uid := codec.encode(user.id);
      var token := gen.makeToken(user);
      mail.Some? && mail.value.body == VerificationBodyPrefix + VerificationUrl(settings, uid, token)
      && VerifyEmail(users, uid, token, gen, codec).0.status == HttpOk
      && VerifyEmail(users, uid, token, gen, codec).1[user.id].isEmailVerified
  {
  }

  /** The two endpoints acting on the user table, with the mail they send. */
  class AccountService {
    var users: map<nat, UserRecord>
    var outbox: seq<Mail>

    constructor (users: map<nat, UserRecord>)
      ensures this.users == users && outbox == []
    {
      this.users := users;
      outbox := [];
    }

    method ResendVerificationEmail(user: UserRecord, gen: TokenGenerator, codec: UidCodec, settings: Settings)
      returns (response: Response)
      modifies this`outbox
      ensures var r := ResendVerification(user, gen, codec, settings);
        response == r.0 && outbox == old(outbox) + (if r.1.Some? then [r.1.value] else [])
    {
      if user.isEmailVerified {
        return Response(HttpBadRequest, AlreadyVerified);
      }
      var token := gen.makeToken(user);
      var uid := codec.encode(user.id);
      var url := VerificationUrl(settings, uid, token);
      outbox := outbox + [Mail(VerificationSubject, VerificationBodyPrefix + url, settings.defaultFromEmail, [user.email])];
      response := Response(HttpOk, VerificationSent);
    }

    method VerifyEmailLink(uidb64: string, token: string, gen: TokenGenerator, codec: UidCodec)
      returns (response: Response)
      modifies this`users
      ensures (response, users) == VerifyEmail(old(users), uidb64, token, gen, codec)
    {
      var pk := codec.decode(uidb64);
      var user: Option<UserRecord> := None;
      if pk.Some? && pk.value in users {
        user := Some(users[pk.value]);
      }
      if user.Some? && gen.checkToken(user.value, token) {
        users := users[pk.value := user.value.(isEmailVerified := true)];
        return Response(HttpOk, EmailVerified);
      }
      response := Response(HttpBadRequest, InvalidLink);
    }
  }
}

=== FILE: auth_context.dfy ===
/**
 * The front end's session manager (`AuthProvider` in AuthContext.tsx).
 *
 * The session is the tuple (user, token, isLoading) held in React state, together
 * with the token persisted in browser storage under the key "token" and the
 * Authorization header installed on the shared HTTP client. HTTP answers are inputs
 * (`Outcome`), navigation is an output event.
 *
 * Each operation is first given as a pure step function on a `Session` value; the
 * class `AuthProvider` keeps the same state in fields and its methods are proved to
 * perform exactly those steps.
 */
module AuthContext {
  import opened Optional

  /** The user object returned by `/auth/me/` and `/auth/login/`. */
  datatype User = User(
    id: string,
    email: string,
    firstName: string,
    lastName: string,
    isEmailVerified: bool,
    isTwoFactorEnabled: bool,
    profilePicture: Option<string>)

  /** The three ways an HTTP call made through the client can fail. */
  datatype HttpFailure =
    | ServerResponse(detail: Option<string>)  // the server answered with a non-2xx status
    | NoResponse                              // the request was sent, nothing came back
    | SetupError                              // the request could not be built

  /** What an HTTP call produced: its response body, or how it failed. */
  datatype Outcome<+T> = Ok(data: T) | Failed(failure: HttpFailure)

  /** The body of a successful `/auth/login/` answer. */
  datatype LoginData = LoginData(token: string, user: User)

  datatype AuthOperation = LoginOperation | RegisterOperation

  const DashboardRoute: string := "/dashboard"
  const LoginRoute: string := "/login"
  const NetworkErrorMessage: string := "Network error. Please check your connection."
  const BearerPrefix: string := "Bearer "

  /** JavaScript truthiness of a `string | null`: the empty string is falsy. */
  predicate Truthy(s: Option<string>)
  {
    s.Some? && s.value != ""
  }

  // ---------------------------------------------------------------------------
  // Error messages
  // ---------------------------------------------------------------------------

  /** The message used when the server answered without a usable `detail`. */
  function FallbackMessage(op: AuthOperation): string
  {
    match op
    case LoginOperation => "Login failed"
    case RegisterOperation => "Registration failed"
  }

  /** The message used when the request could not even be set up. */
  function SetupErrorMessage(op: AuthOperation): string
  {
    match op
    case LoginOperation => "An error occurred during login"
    case RegisterOperation => "An error occurred during registration"
  }

  /**
   * The message of the `Error` that `login` and `register` throw: the server's own
   * `detail` when it sent a non-empty one, else a fixed message per failure tier.
   * Without a server answer, login and register give the same network message.
   * The message is always displayable (non-empty).
   */
  function ErrorMessage(op: AuthOperation, f: HttpFailure): (msg: string)
    ensures msg != ""
    ensures f.ServerResponse? && Truthy(f.detail) ==> msg == f.detail.value
    ensures f.ServerResponse? && !Truthy(f.detail) ==> msg == FallbackMessage(op)
    ensures f.NoResponse? ==> msg == NetworkErrorMessage
    ensures f.SetupError? ==> msg == SetupErrorMessage(op)
  {
    match f
    case ServerResponse(detail) => if Truthy(detail) then detail.value else FallbackMessage(op)
    case NoResponse => NetworkErrorMessage
    case SetupError => SetupErrorMessage(op)
  }

  // ---------------------------------------------------------------------------
  // The Authorization header
  // ---------------------------------------------------------------------------

  /**
   * The value the header effect installs on the client: set for a truthy token, removed
   * otherwise. The header carries the token itself: stripping the `Bearer ` prefix
   * gives it back.
   */
  function AuthorizationHeader(token: Option<string>): (h: Option<string>)
    ensures h.Some? <==> Truthy(token)
    ensures h.Some? ==> BearerPrefix <= h.value && h.value[|BearerPrefix|..] == token.value
  {
    if Truthy(token) then Some(BearerPrefix + token.value) else None
  }

  // ---------------------------------------------------------------------------
  // Session state and its transitions
  // ---------------------------------------------------------------------------

  /** The observable session: React state, the stored token and the client's header. */
  datatype Session = Session(
    user: Option<User>,
    token: Option<string>,
    isLoading: bool,
    storedToken: Option<string>,
    authHeader: Option<string>)

  /** `isAuthenticated: !!user`. */
  predicate IsAuthenticated(s: Session)
  {
    s.user.Some?
  }

  /** Storage mirrors the in-memory token, and the header mirrors the token. */
  predicate Consistent(s: Session)
  {
    s.storedToken == s.token && s.authHeader == AuthorizationHeader(s.token)
  }

  /** What a transition produced besides the new session: a navigation and a thrown error. */
  datatype Step = Step(session: Session, navigateTo: Option<string>, error: Option<string>)

  /**
   * The state right after mount: no user, the token read from storage, loading, and
   * the header effect having run once for that token.
   */
  function Initial(stored: Option<string>): (s: Session)
    ensures !IsAuthenticated(s) && s.token == stored && s.isLoading
    ensures Consistent(s)
  {
    Session(None, stored, true, stored, AuthorizationHeader(stored))
  }

  /**
   * `initializeAuth`: with a truthy token, ask `/auth/me/`; adopt the user on success,
   * forget the token (storage, state, header) on failure. Without a truthy token no
   * request is made and `me` is not consulted. Loading always ends.
   */
  function InitializeStep(s: Session, me: Outcome<User>): (r: Session)
    ensures !r.isLoading
    ensures Consistent(s) ==> Consistent(r)
    ensures Truthy(s.token) && me.Ok? ==> r.user == Some(me.data) && r.token == s.token
    ensures Truthy(s.token) && me.Failed? ==> r.token.None? && r.storedToken.None? && r.authHeader.None?
    ensures !(Truthy(s.token) && me.Ok?) ==> r.user == s.user
    ensures !Truthy(s.token) ==> r == s.(isLoading := false)
  {
    if Truthy(s.token) then
      match me
      case Ok(u) => s.(user := Some(u), isLoading := false)
      case Failed(_) => s.(storedToken := None, token := None, authHeader := AuthorizationHeader(None), isLoading := false)
    else
      s.(isLoading := false)
  }

  /**
   * `login`: on success store the returned token, adopt it and the returned user,
   * and navigate to the dashboard; on failure change nothing and throw the derived message.
   */
  function LoginStep(s: Session, response: Outcome<LoginData>): (r: Step)
    ensures response.Ok? ==>
      && r.session.token == r.session.storedToken == Some(response.data.token)
      && r.session.user == Some(response.data.user)
      && r.navigateTo == Some(DashboardRoute) && r.error.None?
    ensures response.Failed? ==>
      && r.session == s && r.navigateTo.None?
      && r.error == Some(ErrorMessage(LoginOperation, response.failure))
    ensures r.session.isLoading == s.isLoading
    ensures Consistent(s) ==> Consistent(r.session)
  {
    match response
    case Ok(data) =>
      var token := Some(data.token);
      Step(s.(storedToken := token, token := token, authHeader := AuthorizationHeader(token), user := Some(data.user)),
           Some(DashboardRoute), None)
    case Failed(f) =>
      Step(s, None, Some(ErrorMessage(LoginOperation, f)))
  }

  /** `register`: never touches the session; navigates to the login page on success only. */
  function RegisterStep(s: Session, response: Outcome<()>): (r: Step)
    ensures r.session == s
    ensures r.navigateTo.Some? <==> response.Ok?
    ensures r.navigateTo.Some? ==> r.navigateTo.value == LoginRoute
    ensures r.error.Some? <==> response.Failed?
    ensures response.Failed? ==> r.error == Some(ErrorMessage(RegisterOperation, response.failure))
  {
    match response
    case Ok(_) => Step(s, Some(LoginRoute), None)
    case Failed(f) => Step(s, None, Some(ErrorMessage(RegisterOperation, f)))
  }

  /** `logout`: clears storage, token and user, and navigates to the login page. */
  function LogoutStep(s: Session): (r: Step)
    ensures !IsAuthenticated(r.session) && r.session.token.None? && r.session.storedToken.None?
    ensures r.session.authHeader.None?
    ensures r.session.isLoading == s.isLoading
    ensures Consistent(r.session)
    ensures r.navigateTo == Some(LoginRoute) && r.error.None?
  {
    Step(s.(storedToken := None, token := None, authHeader := AuthorizationHeader(None), user := None),
         Some(LoginRoute), None)
  }

  /** Logging out twice leaves the same session as logging out once. */
  lemma LogoutIdempotent(s: Session)
    ensures LogoutStep(LogoutStep(s).session).session == LogoutStep(s).session
  {
  }

  // ---------------------------------------------------------------------------
  // Traces of operations
  // ---------------------------------------------------------------------------

  /** One operation on the session, with the answer the server gave to it. */
  datatype Event =
    | Initialize(me: Outcome<User>)
    | LoginAttempt(login: Outcome<LoginData>)
    | RegisterAttempt(registration: Outcome<()>)
    | LogoutRequest

  /**
   * One operation as a step. A thrown error never comes with a changed session, and
   * each operation keeps storage and header consistent and never restarts loading.
   */
  function Apply(s: Session, e: Event): (r: Step)
    ensures r.error.Some? ==> r.session == s
    ensures e.Initialize? ==> r.navigateTo.None? && r.error.None?
    ensures Consistent(s) ==> Consistent(r.session)
    ensures !s.isLoading ==> !r.session.isLoading
  {
    match e
    case Initialize(me) => Step(InitializeStep(s, me), None, None)
    case LoginAttempt(response) => LoginStep(s, response)
    case RegisterAttempt(response) => RegisterStep(s, response)
    case LogoutRequest => LogoutStep(s)
  }

  /** The session after performing `events` in order, starting from `s`. */
  function Run(s: Session, events: seq<Event>): (r: Session)
    ensures Consistent(s) ==> Consistent(r)
    ensures !s.isLoading ==> !r.isLoading
    decreases |events|
  {
    if events == [] then s else Run(Apply(s, events[0]).session, events[1..])
  }

  /** Operations run in order: a trace followed by another is the concatenated trace. */
  lemma {:induction false} RunAppend(s: Session, first: seq<Event>, second: seq<Event>)
    ensures Run(s, first + second) == Run(Run(s, first), second)
    decreases |first|
  {
    if first == [] {
      assert first + second == second;
    } else {
      assert (first + second)[0] == first[0];
      assert (first + second)[1..] == first[1..] + second;
      RunAppend(Apply(s, first[0]).session, first[1..], second);
    }
  }

  /** Whatever `/auth/me/` answers, a trace that starts with initialisation ends not loading. */
  lemma InitializationEndsLoading(s: Session, me: Outcome<User>, events: seq<Event>)
    ensures !Run(s, [Initialize(me)] + events).isLoading
  {
    assert ([Initialize(me)] + events)[1..] == events;
  }

  /**
   * A successful login with a non-empty token survives a page reload: a fresh provider
   * reading the same storage, whose `/auth/me/` call succeeds, is authenticated with that token.
   */
  lemma LoginSurvivesReload(s: Session, data: LoginData, me: User)
    requires data.token != ""
    ensures var reloaded := InitializeStep(Initial(LoginStep(s, Ok(data)).session.storedToken), Ok(me));
      IsAuthenticated(reloaded) && reloaded.token == Some(data.token) && !reloaded.isLoading
  {
  }

  /** On the first load, a user is only ever adopted together with a truthy token. */
  lemma FirstLoadUserNeedsToken(stored: Option<string>, me: Outcome<User>)
    ensures var r := InitializeStep(Initial(stored), me); IsAuthenticated(r) ==> Truthy(r.token)
  {
  }

  /**
   * The initialisation effect re-runs whenever the token changes. If the `/auth/me/`
   * call that follows a login fails, the token is dropped but the user is kept, so
   * the session reports itself authenticated without a token.
   */
  lemma RevalidationFailureKeepsUser(stored: Option<string>, data: LoginData, f: HttpFailure)
    requires data.token != ""
    ensures var afterLogin := LoginStep(InitializeStep(Initial(stored), Failed(f)), Ok(data)).session;
      var r := InitializeStep(afterLogin, Failed(f));
      IsAuthenticated(r) && r.token.None?
  {
  }

  /** A persisted token that `/auth/me/` rejects leaves an anonymous session and empty storage. */
  lemma ExpiredTokenScenario(detail: Option<string>)
    ensures InitializeStep(Initial(Some("abc123")), Failed(ServerResponse(detail)))
         == Session(None, None, false, None, None)
  {
  }

  // ---------------------------------------------------------------------------
  // The provider as an object with state
  // ---------------------------------------------------------------------------

  function NavigationOf(nav: Option<string>): seq<string>
  {
    if nav.Some? then [nav.value] else []
  }

  /** `AuthProvider`: the session held in fields, with a log of the navigations it requested. */
  class AuthProvider {
    var user: Option<User>
    var token: Option<string>
    var isLoading: bool
    var storedToken: Option<string>  // localStorage "token"
    var authHeader: Option<string>   // the client's default Authorization header
    var navigations: seq<string>

    function State(): Session
      reads this
    {
      Session(user, token, isLoading, storedToken, authHeader)
    }

    /** Mounting the provider: state initialised from storage, header effect run once. */
    constructor (stored: Option<string>)
      ensures State() == Initial(stored) && navigations == []
    {
      user := None;
      token := stored;
      isLoading := true;
      storedToken := stored;
      authHeader := AuthorizationHeader(stored);
      navigations := [];
    }

    /** The effect that mirrors the token into the client's default header. */
    method SyncAuthHeader()
      modifies this`authHeader
      ensures authHeader == AuthorizationHeader(token)
    {
      if Truthy(token) {
        authHeader := Some(BearerPrefix + token.value);
      } else {
        authHeader := None;
      }
    }

    method InitializeAuth(me: Outcome<User>)
      modifies this
      ensures State() == InitializeStep(old(State()), me)
      ensures navigations == old(navigations)
    {
      if Truthy(token) {
        match me
        case Ok(u) =>
          user := Some(u);
        case Failed(_) =>
          storedToken := None;
          token := None;
          SyncAuthHeader();
      }
      isLoading := false;
    }

    /** Returns the message of the thrown error, if any. */
    method Login(response: Outcome<LoginData>) returns (error: Option<string>)
      modifies this
      ensures State() == LoginStep(old(State()), response).session
      ensures navigations == old(navigations) + NavigationOf(LoginStep(old(State()), response).navigateTo)
      ensures error == LoginStep(old(State()), response).error
    {
      match response
      case Ok(data) =>
        storedToken := Some(data.token);
        token := Some(data.token);
        user := Some(data.user);
        SyncAuthHeader();
        navigations := navigations + [DashboardRoute];
        error := None;
      case Failed(f) =>
        error := Some(ErrorMessage(LoginOperation, f));
    }

    method Register(response: Outcome<()>) returns (error: Option<string>)
      modifies this`navigations
      ensures navigations == old(navigations) + NavigationOf(RegisterStep(State(), response).navigateTo)
      ensures error == RegisterStep(State(), response).error
    {
      match response
      case Ok(_) =>
        navigations := navigations + [LoginRoute];
        error := None;
      case Failed(f) =>
        error := Some(ErrorMessage(RegisterOperation, f));
    }

    method Logout()
      modifies this
      ensures State() == LogoutStep(old(State())).session
      ensures navigations == old(navigations) + [LoginRoute]
    {
      storedToken := None;
      token := None;
      user := None;
      SyncAuthHeader();
      navigations := navigations + [LoginRoute];
    }

    function IsAuthenticatedNow(): (b: bool)
      reads this
      ensures b <==> IsAuthenticated(State())
    {
      user.Some?
    }
  }
}

=== FILE: optional.dfy ===
/** Absent-or-present values and success-or-error results, shared by every module. */
module Optional {

  /** A value that may be missing: JavaScript's `null`/`undefined`, Python's `None`. */
  datatype Option<+T> = None | Some(value: T)

  /** The outcome of an operation that either returns a value or raises an error. */
  datatype Result<+T, +E> = Success(value: T) | Failure(error: E)
}

=== FILE: profile_page.dfy ===
/**
 * The profile page (Profile.tsx): the form record, its client-side validation, the
 * picture acceptance rule, the multipart payload it sends and the record updates
 * that the input handlers perform.
 *
 * React state updates of the form (`setFormData(prev => ({...prev, ...}))`) are pure
 * functions from the previous record to the next one. Toast notifications are
 * returned as a list of events.
 */
module ProfilePage {
  import opened Optional
  import AuthContext

  /** A file chosen in the picture input: only its name, size in bytes and MIME type matter here. */
  datatype Picture = Picture(name: string, size: nat, mimeType: string)

  datatype ProfileFormData = ProfileFormData(
    email: string,
    firstName: string,
    lastName: string,
    currentPassword: string,
    newPassword: string,
    confirmPassword: string,
    profilePicture: Option<Picture>,
    isTwoFactorEnabled: bool)

  datatype Toast = SuccessToast(text: string) | ErrorToast(text: string)

  /** The form's initial value, taken from the signed-in user (`user?.x || default`). */
  function InitialForm(user: Option<AuthContext.User>): (f: ProfileFormData)
    ensures f.currentPassword == f.newPassword == f.confirmPassword == ""
    ensures f.profilePicture.None?
    ensures user.None? ==> f.email == f.firstName == f.lastName == "" && !f.isTwoFactorEnabled
    ensures user.Some? ==>
      && f.email == user.value.email && f.firstName == user.value.firstName
      && f.lastName == user.value.lastName && f.isTwoFactorEnabled == user.value.isTwoFactorEnabled
  {
    match user
    case None => ProfileFormData("", "", "", "", "", "", None, false)
    case Some(u) => ProfileFormData(u.email, u.firstName, u.lastName, "", "", "", None, u.isTwoFactorEnabled)
  }

  // ---------------------------------------------------------------------------
  // Character classes and lengths as JavaScript sees them
  // ---------------------------------------------------------------------------

  /** The regular-expression class `\s`: ECMAScript white space and line terminators. */
  function IsSpace(c: char): (b: bool)
    ensures c as int < 0x80 ==> (b <==> c in {'\t', '\n', '\U{000B}', '\U{000C}', '\r', ' '})
    ensures b ==> c as int <= 0xFFFF
  {
    || c == '\t' || c == '\n' || c == '\U{000B}' || c == '\U{000C}' || c == '\r' || c == ' '
    || c == '\U{00A0}' || c == '\U{1680}' || '\U{2000}' <= c <= '\U{200A}'
    || c == '\U{2028}' || c == '\U{2029}' || c == '\U{202F}' || c == '\U{205F}'
    || c == '\U{3000}' || c == '\U{FEFF}'
  }

  /**
   * `s.length` in JavaScript counts UTF-16 code units: a character above U+FFFF
   * counts twice. For text without such characters it is the number of characters.
   */
  function Utf16Length(s: string): (n: nat)
    ensures |s| <= n <= 2 * |s|
    ensures (forall k | 0 <= k < |s| :: s[k] as int <= 0xFFFF) ==> n == |s|
    decreases |s|
  {
    if s == [] then 0
    else Utf16Length(s[..|s| - 1]) + (if s[|s| - 1] as int > 0xFFFF then 2 else 1)
  }

  // ---------------------------------------------------------------------------
  // The e-mail pattern /\S+@\S+\.\S+/ tested without anchors
  // ---------------------------------------------------------------------------

  predicate NonSpaceBetween(s: string, lo: int, hi: int)
    requires 0 <= lo && hi <= |s|
  {
    forall k | lo <= k < hi :: !IsSpace(s[k])
  }

  /**
   * The regular expression matches the slice s[p..q] with its literal '@' at i and
   * its literal '.' at j: three non-empty runs of non-space characters around them.
   */
  ghost predicate RegexMatchesSlice(s: string, p: int, i: int, j: int, q: int)
  {
    && 0 <= p < i && i + 1 < j && j + 1 < q <= |s|
    && s[i] == '@' && s[j] == '.'
    && NonSpaceBetween(s, p, i) && NonSpaceBetween(s, i + 1, j) && NonSpaceBetween(s, j + 1, q)
  }

  /** What `/\S+@\S+\.\S+/.test(s)` answers: some slice of s matches. */
  ghost predicate RegexTest(s: string)
  {
    exists p, i, j, q {:trigger RegexMatchesSlice(s, p, i, j, q)} :: RegexMatchesSlice(s, p, i, j, q)
  }

  /** An '@' at i and a '.' at j, each with a non-space neighbour outside and only non-space between. */
  predicate AnchoredAt(s: string, i: int, j: int)
    requires 1 <= i < j && j + 1 < |s|
  {
    s[i] == '@' && s[j] == '.' && !IsSpace(s[i - 1]) && !IsSpace(s[j + 1]) && NonSpaceBetween(s, i + 1, j)
  }

  /**
   * The executable form of the e-mail check. A match needs an '@' and a '.' with at
   * least one character on each side of both, so at least five characters.
   */
  function EmailPattern(s: string): (b: bool)
    ensures b ==> 5 <= |s| && '@' in s && '.' in s
  {
    exists i, j | 1 <= i < |s| && i + 2 <= j < |s| - 1 :: AnchoredAt(s, i, j)
  }

  /** The executable check agrees with the regular expression on every string. */
  lemma EmailPatternIsRegex(s: string)
    ensures EmailPattern(s) <==> RegexTest(s)
  {
    if EmailPattern(s) {
      var i, j :| 1 <= i < |s| && i + 2 <= j < |s| - 1 && AnchoredAt(s, i, j);
      assert RegexMatchesSlice(s, i - 1, i, j, j + 2);
    }
    if RegexTest(s) {
      var p, i, j, q :| RegexMatchesSlice(s, p, i, j, q);
      assert !IsSpace(s[i - 1]);
      assert !IsSpace(s[j + 1]);
      assert AnchoredAt(s, i, j);
    }
  }

  // ---------------------------------------------------------------------------
  // validateForm
  // ---------------------------------------------------------------------------

  const EmailRequired: string := "Email is required"
  const EmailInvalid: string := "Email is invalid"
  const CurrentPasswordRequired: string := "Current password is required to change password"
  const PasswordTooShort: string := "New password must be at least 8 characters long"
  const PasswordsMismatch: string := "New passwords do not match"
  const MinPasswordLength: nat := 8

  /** The position of each message in the order validation reports them. */
  function Rank(m: string): nat
  {
    if m == EmailRequired then 0
    else if m == EmailInvalid then 1
    else if m == CurrentPasswordRequired then 2
    else if m == PasswordTooShort then 3
    else if m == PasswordsMismatch then 4
    else 5
  }

  /** The five messages have the ranks 0 to 4, so no two of them are equal. */
  lemma RanksOfMessages()
    ensures Rank(EmailRequired) == 0 && Rank(EmailInvalid) == 1 && Rank(CurrentPasswordRequired) == 2
    ensures Rank(PasswordTooShort) == 3 && Rank(PasswordsMismatch) == 4
  {
  }

  /** The user is trying to change the password: one of the two new-password inputs is filled in. */
  predicate PasswordChange(f: ProfileFormData)
  {
    f.newPassword != "" || f.confirmPassword != ""
  }

  /** A form the page will submit. */
  predicate FormValid(f: ProfileFormData)
  {
    && f.email != "" && EmailPattern(f.email)
    && (PasswordChange(f) ==>
          f.currentPassword != "" && Utf16Length(f.newPassword) >= MinPasswordLength
          && f.newPassword == f.confirmPassword)
  }

  /** The e-mail part of `validateForm`: at most one message. */
  function EmailErrors(email: string): (errors: seq<string>)
    ensures EmailRequired in errors <==> email == ""
    ensures EmailInvalid in errors <==> email != "" && !EmailPattern(email)
    ensures |errors| <= 1 && forall m | m in errors :: Rank(m) <= 1
    ensures errors == [] <==> email != "" && EmailPattern(email)
  {
    if email == "" then [EmailRequired]
    else if !EmailPattern(email) then [EmailInvalid]
    else []
  }

  /** The password part of `validateForm`: nothing unless a new password is being entered. */
  function PasswordErrors(f: ProfileFormData): (errors: seq<string>)
    ensures CurrentPasswordRequired in errors <==> PasswordChange(f) && f.currentPassword == ""
    ensures PasswordTooShort in errors <==> PasswordChange(f) && Utf16Length(f.newPassword) < MinPasswordLength
    ensures PasswordsMismatch in errors <==> PasswordChange(f) && f.newPassword != f.confirmPassword
    ensures forall m | m in errors :: 2 <= Rank(m) <= 4
    ensures forall a, b | 0 <= a < b < |errors| :: Rank(errors[a]) < Rank(errors[b])
    ensures |errors| <= 3
  {
    if PasswordChange(f) then
      (if f.currentPassword == "" then [CurrentPasswordRequired] else [])
      + (if Utf16Length(f.newPassword) < MinPasswordLength then [PasswordTooShort] else [])
      + (if f.newPassword != f.confirmPassword then [PasswordsMismatch] else [])
    else []
  }

  /**
   * Appending messages of rank at least 2, in increasing rank, to at most one message
   * of rank at most 1 keeps the ranks increasing.
   */
  lemma RanksIncreaseAcross(e: seq<string>, p: seq<string>)
    requires |e| <= 1 && forall m | m in e :: Rank(m) <= 1
    requires forall m | m in p :: 2 <= Rank(m)
    requires forall a, b | 0 <= a < b < |p| :: Rank(p[a]) < Rank(p[b])
    ensures forall a, b | 0 <= a < b < |e + p| :: Rank((e + p)[a]) < Rank((e + p)[b])
  {
    forall a, b | 0 <= a < b < |e + p| ensures Rank((e + p)[a]) < Rank((e + p)[b]) {
      if a < |e| {
        assert e[a] in e && p[b - |e|] in p;
      } else {
        assert (e + p)[a] == p[a - |e|] && (e + p)[b] == p[b - |e|];
      }
    }
  }

  /**
   * `validateForm`: every message appears exactly when its condition holds, in the fixed
   * order e-mail, current password, length, match; password messages only appear when a
   * new password is being entered. No errors exactly for a valid form.
   */
  function ValidateForm(f: ProfileFormData): (errors: seq<string>)
    ensures EmailRequired in errors <==> f.email == ""
    ensures EmailInvalid in errors <==> f.email != "" && !EmailPattern(f.email)
    ensures CurrentPasswordRequired in errors <==> PasswordChange(f) && f.currentPassword == ""
    ensures PasswordTooShort in errors <==> PasswordChange(f) && Utf16Length(f.newPassword) < MinPasswordLength
    ensures PasswordsMismatch in errors <==> PasswordChange(f) && f.newPassword != f.confirmPassword
    ensures forall m | m in errors :: Rank(m) < 5
    ensures forall a, b | 0 <= a < b < |errors| :: Rank(errors[a]) < Rank(errors[b])
    ensures |errors| <= 4
    ensures errors == [] <==> FormValid(f)
  {
    var e := EmailErrors(f.email);
    var p := PasswordErrors(f);
    RanksOfMessages();
    assert EmailRequired !in p && EmailInvalid !in p;
    assert CurrentPasswordRequired !in e && PasswordTooShort !in e && PasswordsMismatch !in e;
    RanksIncreaseAcross(e, p);
    e + p
  }

  /** With both new-password inputs empty, the current-password input never causes an error. */
  lemma NoPasswordErrorsWithoutChange(f: ProfileFormData, current: string)
    requires f.newPassword == "" && f.confirmPassword == ""
    ensures ValidateForm(f.(currentPassword := current)) == ValidateForm(f)
    ensures forall m | m in ValidateForm(f) :: m == EmailRequired || m == EmailInvalid
  {
  }

  // ---------------------------------------------------------------------------
  // handleProfilePictureChange
  // ---------------------------------------------------------------------------

  const MaxPictureSize: nat := 5 * 1024 * 1024
  const PictureTooLarge: string := "Profile picture must be less than 5MB"
  const PictureNotImage: string := "Please upload an image file"

  predicate PictureAcceptable(p: Picture)
  {
    p.size <= MaxPictureSize && "image/" <= p.mimeType
  }

  /**
   * A chosen file is kept only if it is at most 5 MiB and its type starts with "image/";
   * the size is checked first. Accepting it changes only the picture; rejecting it
   * changes nothing and raises one error toast. Choosing no file does nothing.
   */
  function HandleProfilePictureChange(f: ProfileFormData, file: Option<Picture>): (r: (ProfileFormData, seq<Toast>))
    ensures file.None? ==> r == (f, [])
    ensures file.Some? && PictureAcceptable(file.value) ==> r == (f.(profilePicture := file), [])
    ensures file.Some? && !PictureAcceptable(file.value) ==> r.0 == f && |r.1| == 1 && r.1[0].ErrorToast?
    ensures file.Some? && file.value.size > MaxPictureSize ==> r.1 == [ErrorToast(PictureTooLarge)]
    ensures file.Some? && file.value.size <= MaxPictureSize && !("image/" <= file.value.mimeType) ==>
              r.1 == [ErrorToast(PictureNotImage)]
  {
    match file
    case None => (f, [])
    case Some(p) =>
      if p.size > MaxPictureSize then (f, [ErrorToast(PictureTooLarge)])
      else if !("image/" <= p.mimeType) then (f, [ErrorToast(PictureNotImage)])
      else (f.(profilePicture := file), [])
  }

  // ---------------------------------------------------------------------------
  // handleChange and the two-factor toggle
  // ---------------------------------------------------------------------------

  /** The six text inputs, by their `name` attribute. */
  datatype TextInput =
    | EmailInput | FirstNameInput | LastNameInput
    | CurrentPasswordInput | NewPasswordInput | ConfirmPasswordInput

  function InputValue(f: ProfileFormData, n: TextInput): string
  {
    match n
    case EmailInput => f.email
    case FirstNameInput => f.firstName
    case LastNameInput => f.lastName
    case CurrentPasswordInput => f.currentPassword
    case NewPasswordInput => f.newPassword
    case ConfirmPasswordInput => f.confirmPassword
  }

  /** `handleChange`: the named input takes the typed value, nothing else changes. */
  function HandleChange(f: ProfileFormData, n: TextInput, value: string): (r: ProfileFormData)
    ensures InputValue(r, n) == value
    ensures forall m :: m != n ==> InputValue(r, m) == InputValue(f, m)
    ensures r.profilePicture == f.profilePicture && r.isTwoFactorEnabled == f.isTwoFactorEnabled
  {
    match n
    case EmailInput => f.(email := value)
    case FirstNameInput => f.(firstName := value)
    case LastNameInput => f.(lastName := value)
    case CurrentPasswordInput => f.(currentPassword := value)
    case NewPasswordInput => f.(newPassword := value)
    case ConfirmPasswordInput => f.(confirmPassword := value)
  }

  /** Typing into an input and then typing its old value back restores the form. */
  lemma ChangeThenRestore(f: ProfileFormData, n: TextInput, value: string)
    ensures HandleChange(HandleChange(f, n, value), n, InputValue(f, n)) == f
  {
  }

  /** The 2FA button: flips the flag and nothing else. */
  function ToggleTwoFactor(f: ProfileFormData): (r: ProfileFormData)
    ensures r.isTwoFactorEnabled == !f.isTwoFactorEnabled
    ensures r.(isTwoFactorEnabled := f.isTwoFactorEnabled) == f
  {
    f.(isTwoFactorEnabled := !f.isTwoFactorEnabled)
  }

  lemma ToggleTwiceRestores(f: ProfileFormData)
    ensures ToggleTwoFactor(ToggleTwoFactor(f)) == f
  {
  }

  // ---------------------------------------------------------------------------
  // handleSubmit
  // ---------------------------------------------------------------------------

  /** One part of the multipart body: text, or the chosen file. */
  datatype PartValue = TextPart(text: string) | FilePart(file: Picture)

  /** The multipart body, in the order the parts are appended. */
  type Payload = seq<(string, PartValue)>

  /** The first part with the given name, as `FormData.get` returns it. */
  function Lookup(p: Payload, name: string): (v: Option<PartValue>)
    ensures v.None? <==> forall k | 0 <= k < |p| :: p[k].0 != name
  {
    if p == [] then None
    else if p[0].0 == name then Some(p[0].1)
    else Lookup(p[1..], name)
  }

  /** A part whose name does not occur earlier is the one `Lookup` finds. */
  lemma {:induction false} LookupFirst(p: Payload, k: nat)
    requires k < |p|
    requires forall j | 0 <= j < k :: p[j].0 != p[k].0
    ensures Lookup(p, p[k].0) == Some(p[k].1)
    decreases k
  {
    if k > 0 {
      LookupFirst(p[1..], k - 1);
    }
  }

  /** `Boolean.prototype.toString`. */
  function BoolText(b: bool): string
  {
    if b then "true" else "false"
  }

  /** `handleSubmit`'s `FormData`: the parts appended, in order. */
  function BuildPayload(f: ProfileFormData): (p: Payload)
    ensures |p| == 4 + (if f.profilePicture.Some? then 1 else 0) + (if f.newPassword != "" then 2 else 0)
  {
    var always := [("email", TextPart(f.email)), ("firstName", TextPart(f.firstName)),
                   ("lastName", TextPart(f.lastName)),
                   ("isTwoFactorEnabled", TextPart(BoolText(f.isTwoFactorEnabled)))];
    var picture := if f.profilePicture.Some? then [("profilePicture", FilePart(f.profilePicture.value))] else [];
    var passwords :=
      if f.newPassword != "" then [("currentPassword", TextPart(f.currentPassword)), ("newPassword", TextPart(f.newPassword))]
      else [];
    always + picture + passwords
  }

  /** The confirmation input is never among the parts sent. */
  lemma PayloadShape(f: ProfileFormData)
    ensures var p := BuildPayload(f); forall k | 0 <= k < |p| :: p[k].0 != "confirmPassword"
  {
  }

  /**
   * What the server receives under each part name: e-mail, names and the 2FA flag
   * always; the picture only when one was chosen; the current and new password only
   * when a new password was typed; nothing else (the confirmation is never sent).
   */
  function ExpectedPart(f: ProfileFormData, name: string): Option<PartValue>
  {
    if name == "email" then Some(TextPart(f.email))
    else if name == "firstName" then Some(TextPart(f.firstName))
    else if name == "lastName" then Some(TextPart(f.lastName))
    else if name == "isTwoFactorEnabled" then Some(TextPart(BoolText(f.isTwoFactorEnabled)))
    else if name == "profilePicture" && f.profilePicture.Some? then Some(FilePart(f.profilePicture.value))
    else if name == "currentPassword" && f.newPassword != "" then Some(TextPart(f.currentPassword))
    else if name == "newPassword" && f.newPassword != "" then Some(TextPart(f.newPassword))
    else None
  }

  /** The payload holds exactly the expected parts. */
  lemma PayloadParts(f: ProfileFormData, name: string)
    ensures Lookup(BuildPayload(f), name) == ExpectedPart(f, name)
  {
    var p := BuildPayload(f);
    var offset := if f.profilePicture.Some? then 1 else 0;
    if name == "email" {
      LookupFirst(p, 0);
    } else if name == "firstName" {
      LookupFirst(p, 1);
    } else if name == "lastName" {
      LookupFirst(p, 2);
    } else if name == "isTwoFactorEnabled" {
      LookupFirst(p, 3);
    } else if name == "profilePicture" && f.profilePicture.Some? {
      LookupFirst(p, 4);
    } else if name == "currentPassword" && f.newPassword != "" {
      LookupFirst(p, 4 + offset);
    } else if name == "newPassword" && f.newPassword != "" {
      LookupFirst(p, 5 + offset);
    }
  }

  /** After a successful save the password inputs are emptied and the chosen picture dropped. */
  function PostSaveReset(f: ProfileFormData): (r: ProfileFormData)
    ensures r.currentPassword == r.newPassword == r.confirmPassword == "" && r.profilePicture.None?
    ensures r.email == f.email && r.firstName == f.firstName && r.lastName == f.lastName
    ensures r.isTwoFactorEnabled == f.isTwoFactorEnabled
  {
    f.(currentPassword := "", newPassword := "", confirmPassword := "", profilePicture := None)
  }

  /** How the PUT to `/profile/` ended. */
  datatype PutOutcome =
    | Saved
    | RequestFailed(message: Option<string>)  // an HTTP-client error, with the server's `message` if any
    | UnexpectedError                          // any other exception

  const ProfileUpdated: string := "Profile updated successfully"
  const UpdateFailed: string := "Failed to update profile"
  const UnexpectedErrorMessage: string := "An unexpected error occurred"

  /** The result of one submit: the next form, the request sent (if any), and the toasts shown. */
  datatype Submission = Submission(form: ProfileFormData, request: Option<Payload>, toasts: seq<Toast>)

  function ErrorToasts(errors: seq<string>): (ts: seq<Toast>)
    ensures |ts| == |errors|
    ensures forall k | 0 <= k < |errors| :: ts[k] == ErrorToast(errors[k])
  {
    seq(|errors|, k requires 0 <= k < |errors| => ErrorToast(errors[k]))
  }

  /** The text of the toast for a failed request: the server's non-empty message, else a fixed one. */
  function FailureText(message: Option<string>): (t: string)
    ensures t != ""
    ensures AuthContext.Truthy(message) ==> t == message.value
    ensures !AuthContext.Truthy(message) ==> t == UpdateFailed
  {
    if AuthContext.Truthy(message) then message.value else UpdateFailed
  }

  /**
   * The `try` block of `handleSubmit` for a form that passed validation: the payload is
   * sent; a save resets the form and confirms, a failure keeps it and reports.
   */
  function SendRequest(f: ProfileFormData, put: PutOutcome): (r: Submission)
    ensures r.request == Some(BuildPayload(f))
    ensures put.Saved? ==> r.form == PostSaveReset(f) && r.toasts == [SuccessToast(ProfileUpdated)]
    ensures !put.Saved? ==> r.form == f
    ensures put.RequestFailed? ==> r.toasts == [ErrorToast(FailureText(put.message))]
    ensures put.UnexpectedError? ==> r.toasts == [ErrorToast(UnexpectedErrorMessage)]
  {
    var payload := BuildPayload(f);
    match put
    case Saved => Submission(PostSaveReset(f), Some(payload), [SuccessToast(ProfileUpdated)])
    case RequestFailed(message) => Submission(f, Some(payload), [ErrorToast(FailureText(message))])
    case UnexpectedError => Submission(f, Some(payload), [ErrorToast(UnexpectedErrorMessage)])
  }

  /**
   * `handleSubmit`: an invalid form shows each validation error and sends nothing;
   * a valid one sends its payload and, once saved, resets the password inputs and the
   * picture. A failed request leaves the form as it was and shows one error toast.
   * `put` is consulted only when a request is sent.
   */
  function HandleSubmit(f: ProfileFormData, put: PutOutcome): (r: Submission)
    ensures ValidateForm(f) != [] ==> r == Submission(f, None, ErrorToasts(ValidateForm(f)))
    ensures ValidateForm(f) == [] ==> r == SendRequest(f, put)
  {
    var errors := ValidateForm(f);
    if errors != [] then Submission(f, None, ErrorToasts(errors)) else SendRequest(f, put)
  }

  /**
   * A request that carries a new password also carries a non-empty current password,
   * and the new password is long enough and was confirmed.
   */
  lemma SentPasswordChangeIsComplete(f: ProfileFormData, put: PutOutcome)
    requires HandleSubmit(f, put).request.Some?
    requires Lookup(HandleSubmit(f, put).request.value, "newPassword").Some?
    ensures Lookup(HandleSubmit(f, put).request.value, "currentPassword") == Some(TextPart(f.currentPassword))
    ensures f.currentPassword != "" && f.newPassword == f.confirmPassword
    ensures Utf16Length(f.newPassword) >= MinPasswordLength
  {
    var r := HandleSubmit(f, put);
    assert ValidateForm(f) == [];
    assert r.request.value == BuildPayload(f);
    PayloadParts(f, "newPassword");
    PayloadParts(f, "currentPassword");
    assert f.newPassword != "";
    assert FormValid(f) && PasswordChange(f);
  }

  /** A form that was saved is still valid after the reset, so it can be submitted again. */
  lemma SavedFormStaysValid(f: ProfileFormData)
    requires FormValid(f)
    ensures ValidateForm(PostSaveReset(f)) == []
  {
  }

  /**
   * On a form whose e-mail and current password are fine and whose new password is
   * long enough, mismatched new passwords block the request with exactly the
   * mismatch message.
   */
  lemma MismatchedPasswordsBlockSubmit(f: ProfileFormData, put: PutOutcome)
    requires f.email != "" && EmailPattern(f.email) && f.currentPassword != ""
    requires Utf16Length(f.newPassword) >= MinPasswordLength && f.newPassword != f.confirmPassword
    ensures ValidateForm(f) == [PasswordsMismatch] && HandleSubmit(f, put).request.None?
  {
  }

  /** The mismatch rule on a concrete form: `a@b.com` with new passwords `password1` and `password2`. */
  lemma MismatchedPasswordsScenario(put: PutOutcome)
    ensures var f := ProfileFormData("a@b.com", "A", "B", "secret123", "password1", "password2", None, false);
      ValidateForm(f) == [PasswordsMismatch] && HandleSubmit(f, put).request.None?
  {
    var f := ProfileFormData("a@b.com", "A", "B", "secret123", "password1", "password2", None, false);
    assert AnchoredAt(f.email, 1, 3);
    assert Utf16Length(f.newPassword) == |f.newPassword|;
    MismatchedPasswordsBlockSubmit(f, put);
  }
}

=== FILE: profile_serializer.dfy ===
/**
 * The profile serializer (serializers.py): which input fields reach `update`, the
 * password-change precondition in `validate`, and `update` itself, which pops the
 * password and picture entries, changes the password only after checking the
 * current one, replaces the picture only when a new one is given, and copies every
 * remaining entry onto the instance with `setattr` before saving.
 *
 * The serializer's data is a dictionary from field names to typed values.
 */
module ProfileSerializer {
  import opened Optional
  import opened AccountModel

  datatype Field =
    | Id | Email | FirstName | LastName | IsEmailVerified | IsTwoFactorEnabled
    | ProfilePicture | CurrentPassword | NewPassword

  datatype Value = Text(text: string) | Flag(flag: bool) | Number(number: nat) | Image(name: string)

  type Data = map<Field, Value>

  /** `read_only_fields`: accepted in output, ignored in input. */
  const ReadOnlyFields: set<Field> := {Id, IsEmailVerified}

  /** The entries `update` pops before the `setattr` loop. */
  const PoppedFields: set<Field> := {CurrentPassword, NewPassword, ProfilePicture}

  const CurrentPasswordRequired: string := "Current password is required to change password"
  const CurrentPasswordIncorrect: string := "Current password is incorrect"

  /** Python truthiness of a field value: empty text, false and an unnamed file are falsy. */
  predicate Truthy(v: Value)
  {
    match v
    case Text(t) => t != ""
    case Flag(b) => b
    case Number(n) => n != 0
    case Image(name) => name != ""
  }

  /** The kind of value each serializer field produces; names within their column width. */
  predicate Fits(f: Field, v: Value)
  {
    match f
    case Id => v.Number?
    case Email => v.Text?
    case FirstName => v.Text? && |v.text| <= MaxNameLength
    case LastName => v.Text? && |v.text| <= MaxNameLength
    case IsEmailVerified => v.Flag?
    case IsTwoFactorEnabled => v.Flag?
    case ProfilePicture => v.Image?
    case CurrentPassword => v.Text?
    case NewPassword => v.Text?
  }

  /** Data as the serializer's field validation leaves it. */
  predicate WellTyped(d: Data)
  {
    forall f | f in d :: Fits(f, d[f])
  }

  /** `data.get(key)` and `data.pop(key, None)`. */
  function Get(d: Data, f: Field): Option<Value>
  {
    if f in d then Some(d[f]) else None
  }

  /** The value of a field read through `getattr` on the model, for the fields `setattr` can reach. */
  function Attribute(u: UserRecord, f: Field): Option<Value>
  {
    match f
    case Id => Some(Number(u.id))
    case Email => Some(Text(u.email))
    case FirstName => Some(Text(u.firstName))
    case LastName => Some(Text(u.lastName))
    case IsEmailVerified => Some(Flag(u.isEmailVerified))
    case IsTwoFactorEnabled => Some(Flag(u.isTwoFactorEnabled))
    case _ => None
  }

  /**
   * The validated data: incoming entries for read-only fields are dropped, every
   * other entry is kept as parsed. `input` stands for the values after field parsing.
   */
  function ValidatedData(input: Data): (d: Data)
    ensures d.Keys == input.Keys - ReadOnlyFields
    ensures forall f | f in d :: d[f] == input[f]
  {
    input - ReadOnlyFields
  }

  /**
   * `validate`: a request that names a new password must carry a truthy current
   * password; otherwise the data passes through unchanged.
   */
  function Validate(data: Data): (r: Result<Data, string>)
    ensures r.Failure? <==> NewPassword in data && !(CurrentPassword in data && Truthy(data[CurrentPassword]))
    ensures r.Failure? ==> r.error == CurrentPasswordRequired
    ensures r.Success? ==> r.value == data
  {
    if NewPassword in data && !(Get(data, CurrentPassword).Some? && Truthy(data[CurrentPassword])) then
      Failure(CurrentPasswordRequired)
    else
      Success(data)
  }

  /** `setattr(instance, f, v)` for a field that is a model column. */
  function SetAttr(u: UserRecord, f: Field, v: Value): (r: UserRecord)
    requires Fits(f, v) && f !in PoppedFields
    ensures Attribute(r, f) == Some(v)
    ensures forall g | g != f :: Attribute(r, g) == Attribute(u, g)
    ensures r.password == u.password && r.profilePicture == u.profilePicture
  {
    match f
    case Id => u.(id := v.number)
    case Email => u.(email := v.text)
    case FirstName => u.(firstName := v.text)
    case LastName => u.(lastName := v.text)
    case IsEmailVerified => u.(isEmailVerified := v.flag)
    case IsTwoFactorEnabled => u.(isTwoFactorEnabled := v.flag)
  }

  /** The effect of the `setattr` loop over the remaining entries, whatever their order. */
  function CopyAttributes(u: UserRecord, d: Data): (r: UserRecord)
    requires WellTyped(d) && d.Keys !! PoppedFields
    ensures forall f :: Attribute(r, f) == if f in d then Some(d[f]) else Attribute(u, f)
    ensures r.password == u.password && r.profilePicture == u.profilePicture
  {
    UserRecord(
      if Id in d then d[Id].number else u.id,
      if Email in d then d[Email].text else u.email,
      if FirstName in d then d[FirstName].text else u.firstName,
      if LastName in d then d[LastName].text else u.lastName,
      if IsEmailVerified in d then d[IsEmailVerified].flag else u.isEmailVerified,
      if IsTwoFactorEnabled in d then d[IsTwoFactorEnabled].flag else u.isTwoFactorEnabled,
      u.profilePicture,
      u.password)
  }

  /** Setting one more entry after the others is the same as copying them all together. */
  lemma CopyAttributesExtend(u: UserRecord, d: Data, f: Field, v: Value)
    requires WellTyped(d) && d.Keys !! PoppedFields
    requires Fits(f, v) && f !in PoppedFields
    ensures WellTyped(d[f := v]) && d[f := v].Keys !! PoppedFields
    ensures SetAttr(CopyAttributes(u, d), f, v) == CopyAttributes(u, d[f := v])
  {
  }

  /** `new_password` is truthy: the caller asks for a password change. */
  predicate ChangesPassword(d: Data)
  {
    NewPassword in d && Truthy(d[NewPassword])
  }

  /** `current_password`, popped with default None, as the raw text `check_password` receives. */
  function CurrentPasswordText(d: Data): Option<string>
    requires WellTyped(d)
  {
    if CurrentPassword in d then Some(d[CurrentPassword].text) else None
  }

  /** `profile_picture` is truthy: a new picture was uploaded. */
  predicate ReplacesPicture(d: Data)
  {
    ProfilePicture in d && Truthy(d[ProfilePicture])
  }

  /** The entries left after the pops are still well typed, and none of them is popped. */
  lemma RemainingEntries(d: Data)
    requires WellTyped(d)
    ensures WellTyped(d - PoppedFields) && (d - PoppedFields).Keys !! PoppedFields
    ensures forall f | f !in PoppedFields :: (f in d - PoppedFields <==> f in d)
    ensures forall f | f in d - PoppedFields :: (d - PoppedFields)[f] == d[f]
  {
  }

  /** The columns `setattr` reaches do not include the password or the picture. */
  lemma AttributesIgnoreSecrets(u: UserRecord, password: string, picture: Option<string>)
    ensures forall f :: Attribute(u.(password := password, profilePicture := picture), f) == Attribute(u, f)
  {
  }

  /** One more loop step: the copied entries grow by the chosen field. */
  lemma CopyOneMore(start: UserRecord, rest: Data, remaining: set<Field>, f: Field)
    requires WellTyped(rest) && rest.Keys !! PoppedFields
    requires remaining <= rest.Keys && f in remaining
    ensures WellTyped(rest - remaining) && (rest - remaining).Keys !! PoppedFields
    ensures SetAttr(CopyAttributes(start, rest - remaining), f, rest[f]) == CopyAttributes(start, rest - (remaining - {f}))
  {
    CopyAttributesExtend(start, rest - remaining, f, rest[f]);
    assert (rest - remaining)[f := rest[f]] == rest - (remaining - {f});
  }

  /**
   * `update` on the stored record. A password change whose current password does not
   * check fails and writes nothing. Otherwise the password becomes the new one only on
   * a password change, the picture is replaced only by a truthy upload, and every
   * column named in the data takes its value while every other keeps its own.
   */
  function UpdateRecord(u: UserRecord, d: Data, h: PasswordHasher): (r: Result<UserRecord, string>)
    requires WellTyped(d)
    ensures r.Failure? <==> ChangesPassword(d) && !CheckPassword(h, u, CurrentPasswordText(d))
    ensures r.Failure? ==> r.error == CurrentPasswordIncorrect
    ensures r.Success? ==> r.value.password == if ChangesPassword(d) then h.encode(d[NewPassword].text) else u.password
    ensures r.Success? ==> r.value.profilePicture == if ReplacesPicture(d) then Some(d[ProfilePicture].name) else u.profilePicture
    ensures r.Success? ==> forall f :: f !in PoppedFields ==> Attribute(r.value, f) == if f in d then Some(d[f]) else Attribute(u, f)
  {
    if ChangesPassword(d) && !CheckPassword(h, u, CurrentPasswordText(d)) then
      Failure(CurrentPasswordIncorrect)
    else
      var withPassword := if ChangesPassword(d) then u.(password := h.encode(d[NewPassword].text)) else u;
      var withPicture := if ReplacesPicture(d) then withPassword.(profilePicture := Some(d[ProfilePicture].name)) else withPassword;
      RemainingEntries(d);
      AttributesIgnoreSecrets(u, withPicture.password, withPicture.profilePicture);
      Success(CopyAttributes(withPicture, d - PoppedFields))
  }

  /** Whatever the client sends, a profile update never changes the id or the verification flag. */
  lemma ReadOnlyFieldsUnchanged(u: UserRecord, input: Data, h: PasswordHasher)
    requires WellTyped(input)
    ensures WellTyped(ValidatedData(input))
    ensures var r := UpdateRecord(u, ValidatedData(input), h);
      r.Success? ==> r.value.id == u.id && r.value.isEmailVerified == u.isEmailVerified
  {
    var d := ValidatedData(input);
    var r := UpdateRecord(u, d, h);
    if r.Success? {
      assert Attribute(r.value, Id) == Attribute(u, Id);
      assert Attribute(r.value, IsEmailVerified) == Attribute(u, IsEmailVerified);
    }
  }

  /** After a successful change the account accepts the new password, given a sound hasher. */
  lemma NewPasswordChecksAfterUpdate(u: UserRecord, d: Data, h: PasswordHasher)
    requires WellTyped(d) && ChangesPassword(d)
    requires h.matches(d[NewPassword].text, h.encode(d[NewPassword].text))
    ensures var r := UpdateRecord(u, d, h);
      r.Success? ==> CheckPassword(h, r.value, Some(d[NewPassword].text))
  {
  }

  /** Names that fit their columns still fit after an update. */
  lemma UpdateKeepsNamesFit(u: UserRecord, d: Data, h: PasswordHasher)
    requires WellTyped(d) && NamesFit(u)
    ensures var r := UpdateRecord(u, d, h); r.Success? ==> NamesFit(r.value)
  {
    var r := UpdateRecord(u, d, h);
    if r.Success? {
      assert Attribute(r.value, FirstName).value.text == r.value.firstName;
      assert Attribute(r.value, LastName).value.text == r.value.lastName;
    }
  }

  /** `setattr` on the instance for a model column. */
  method SetAttribute(instance: UserInstance, f: Field, v: Value)
    requires Fits(f, v) && f !in PoppedFields
    modifies instance
    ensures instance.Record() == SetAttr(old(instance.Record()), f, v)
    ensures instance.saves == old(instance.saves)
  {
    match f
    case Id => instance.id := v.number;
    case Email => instance.email := v.text;
    case FirstName => instance.firstName := v.text;
    case LastName => instance.lastName := v.text;
    case IsEmailVerified => instance.isEmailVerified := v.flag;
    case IsTwoFactorEnabled => instance.isTwoFactorEnabled := v.flag;
  }

  /** The `setattr` loop over the entries left after the pops. */
  method CopyRemaining(instance: UserInstance, rest: Data)
    requires WellTyped(rest) && rest.Keys !! PoppedFields
    modifies instance
    ensures instance.Record() == CopyAttributes(old(instance.Record()), rest)
    ensures instance.saves == old(instance.saves)
  {
    ghost var start := instance.Record();
    var remaining := rest.Keys;
    while remaining != {}
      invariant remaining <= rest.Keys
      invariant instance.Record() == CopyAttributes(start, rest - remaining)
      invariant instance.saves == old(instance.saves)
      decreases remaining
    {
      var f :| f in remaining;
      CopyOneMore(start, rest, remaining, f);
      SetAttribute(instance, f, rest[f]);
      remaining := remaining - {f};
    }
    assert rest - remaining == rest;
  }

  /**
   * `ProfileSerializer.update`: changes the instance as `UpdateRecord` describes and saves
   * it once; on a failed password check the instance is untouched and not saved.
   */
  method Update(instance: UserInstance, validatedData: Data, h: PasswordHasher) returns (r: Result<(), string>)
    requires WellTyped(validatedData)
    modifies instance
    ensures var expected := UpdateRecord(old(instance.Record()), validatedData, h);
      && r.Failure? == expected.Failure?
      && (r.Failure? ==> r.error == expected.error && instance.Record() == old(instance.Record()))
      && (r.Failure? ==> instance.saves == old(instance.saves))
      && (r.Success? ==> instance.Record() == expected.value && instance.saves == old(instance.saves) + 1)
  {
    var currentPassword := CurrentPasswordText(validatedData);
    var newPassword := Get(validatedData, NewPassword);
    var profilePicture := Get(validatedData, ProfilePicture);
    var rest := validatedData - PoppedFields;

    if newPassword.Some? && Truthy(newPassword.value) {
      if !CheckPassword(h, instance.Record(), currentPassword) {
        return Failure(CurrentPasswordIncorrect);
      }
      instance.SetPassword(h, newPassword.value.text);
    }
    if profilePicture.Some? && Truthy(profilePicture.value) {
      instance.profilePicture := Some(profilePicture.value.name);
    }

    CopyRemaining(instance, rest);
    instance.Save();
    r := Success(());
  }
}
